=== FILE: README.md ===
# Date picker calendar engine, modelled in Dafny

This project models the calendar engine of the Angular date picker's
`DatePickerBase` class. The engine works on two small records. The selection
state holds the view date, the selected date, the selected end date and the
active (hovered) date. The options hold the view mode and its bounds, the
`min`/`max` dates, the custom per-date rules, the single-date or range switch
and the grid dimensions.

The model covers:

- the selection state machine (`selectDate`, `activeDate`);
- the date predicates (`isSame`, `isDisabled`, `isDisabledDateInRange`,
  `isSelected`, `isActive`, `isSelectionStart`/`End`, `isOtherMonth`,
  `isHighlighted`);
- the view-mode controller (`viewMode`, `viewDate` with drill-down, `prev`/`next`);
- the grid layouts (`getStartingDay`, `getStartingYear`, and the day, month and
  year matrices).

Everything is a pure function over immutable records. The one exception is the
year grid, which is a method that follows the source's counting loops.

Modules:

- `Wrappers`: `Option`, for the picker's optional dates.
- `Dates`: the `Date(year, month, day, hour, minute, second)` record with a
  0-based month. It compares dates at day, month or year granularity, the way
  the date library's `isBefore`/`isSame` with a unit do. It also holds the
  Gregorian month lengths and a one-day step (`NextDay`, `Advance`).
- `PickerState`: the state and options records, the range invariant
  `RangeOrdered` and the view-mode bound `ModeWithinBounds`.
- `Validity`: the date predicates.
- `Selection`: `SelectDate`, `ActivateDate` and their lemmas.
- `Navigation`: `SetViewMode`, `SetViewDate`, `Prev`, `Next`.
- `DayGrid`: `StartingDay`, the one-day-per-cell walk and the wrap into rows of seven.
- `SmallGrids`: the month grid, `StartingYear` and the year grid.

Inputs from outside the engine are parameters:

- `weekdayOfFirst`: the week day of the 1st of the view month, from the date
  library's `day()`.
- `firstDayOfWeek`: the locale's first week day.
- `now`: the clock. The date library reads it when one of its comparisons is
  handed a missing date.
- `add`: the date library's date arithmetic, used by `prev`/`next`.

Notes on how the model reads the code:

- The view-mode ordinals (`DatePickerViewModes`) live in the options provider,
  which is not part of this model. The model takes them as days 0 < months 1 < years 2.
- `isDisabledDateInRange` has no guard for a missing selected date; the date
  library then compares against the current instant. The model takes the range
  start as an explicit argument, and `isHighlighted` passes the selected date,
  or `now` when there is none. For the same reason, `isHighlighted` with no
  active date compares the cell with `now`.
- The same-day branch at lines 131-136 of `selectDate` is modelled, but it never
  fires: line 114 has already handled that case.
- The special case at lines 407-409 of `getStartingDay` is redundant. The
  general formula already gives a full leading week
  (`DayGrid.StartingDaySpecialCaseRedundant`).
- `getStartingYear` uses the language's truncating `%`. For a negative year that
  is not a multiple of the grid size, the rounding goes toward zero, so the grid
  starts after the view year (`SmallGrids.StartingYearNegative`).

## Model

| member | source | states |
|---|---|---|
| `Validity.IsSame` | app/datepicker/common/bs-date-picker-base.class.ts:420-426 | false when either date is missing; otherwise the two dates are on the same day, that is each is on or before the other by day |
| `Validity.IsSameSymmetric` | app/datepicker/common/bs-date-picker-base.class.ts:420-426 | sameness by day is symmetric |
| `Validity.DisabledOn` | app/datepicker/common/bs-date-picker-base.class.ts:211-218 | the scan of custom dates finds a disabling rule exactly when some rule marked disabled falls on the day of the date |
| `Validity.IsDisabled` | app/datepicker/common/bs-date-picker-base.class.ts:195-222 | a date is disabled iff it is missing, not after `min`, not before `max` (at the given granularity, so both bounds are themselves disabled), or a disabled custom rule is on its day |
| `Validity.DisabledBetween` | app/datepicker/common/bs-date-picker-base.class.ts:255-264 | the scan finds a rule exactly when some disabled custom date lies between the two dates, inclusive, by day |
| `Validity.DisabledInRange` | app/datepicker/common/bs-date-picker-base.class.ts:250-267 | true iff the picker is a range picker and a disabled custom date lies between the range start and the date, inclusive |
| `Validity.DisabledInRangeMonotone` | app/datepicker/common/bs-date-picker-base.class.ts:250-267 | extending the range end keeps a disabled date found inside it |
| `Validity.IsSelected` | app/datepicker/common/bs-date-picker-base.class.ts:150-161 | only a present date is selected; in single-date mode a cell is selected exactly when it is on the selected date's day, whether or not that date is enabled; in a range picker the selected cells are exactly the range start and end cells |
| `Validity.IsSelectionStart` | app/datepicker/common/bs-date-picker-base.class.ts:224-229 | only a range picker has a start cell, and there it is exactly the cell on the selected date's day; in an ordered range it is not after the end |
| `Validity.IsSelectionEnd` | app/datepicker/common/bs-date-picker-base.class.ts:231-236 | only a range picker has an end cell, and there it is exactly the cell on the selected end date's day; in an ordered range it is not before the start |
| `Validity.IsOtherMonth` | app/datepicker/common/bs-date-picker-base.class.ts:238-240 | a cell is in another month exactly when its month is before or after the view month |
| `Validity.IsActive` | app/datepicker/common/bs-date-picker-base.class.ts:163-193 | an in-range cell is strictly after the start and strictly before the committed end (or, with no end, the active date), never in single-date mode, and only when no disabled date lies in that range |
| `Validity.ActiveInCommittedRange` | app/datepicker/common/bs-date-picker-base.class.ts:180-186 | with a committed range free of disabled dates, the in-range cells are exactly the days strictly between start and end |
| `Validity.ActiveInPreviewRange` | app/datepicker/common/bs-date-picker-base.class.ts:163-193 | while a range is being chosen (start, no end, an active date) with no disabled date up to the active date, the in-range cells are exactly the days strictly between start and active date |
| `Validity.ActiveIsNotSelected` | app/datepicker/common/bs-date-picker-base.class.ts:150-193 | no cell is both strictly inside the range and one of its selected ends |
| `Validity.EndpointsAreSelected` | app/datepicker/common/bs-date-picker-base.class.ts:224-236 | outside single-date mode, the range start and end cells are selected cells |
| `Validity.IsHighlighted` | app/datepicker/common/bs-date-picker-base.class.ts:242-248 | a cell is highlighted exactly when it is on the active day (or today without one) and no disabled custom date lies between the range start (or today) and it, in a range picker |
| `Selection.SelectDate` | app/datepicker/common/bs-date-picker-base.class.ts:87-140 | a disabled or missing date changes nothing; single-date mode selects the date and clears the end; with neither mode nothing changes; the view and active dates never change; every change records the clicked date; the range invariant is preserved |
| `Selection.SingleSelectIdempotent` | app/datepicker/common/bs-date-picker-base.class.ts:92-97 | in single-date mode, selecting the same date twice equals selecting it once |
| `Selection.SelectedAfterSingleSelect` | app/datepicker/common/bs-date-picker-base.class.ts:150-157 | in single-date mode, after selecting an enabled date the selected cells are exactly those on its day |
| `Selection.SelectedAfterRangeComplete` | app/datepicker/common/bs-date-picker-base.class.ts:126-138 | in a range picker, after a later enabled date completes the range, the start cell is the start's day, the end cell the date's day, and the selected cells exactly those two days |
| `Selection.RangeBranches` | app/datepicker/common/bs-date-picker-base.class.ts:99-138 | for an enabled date in a range picker: with no start the date becomes the start and the end is kept; an earlier date restarts with no end; the start's day makes a one-day range ending at the date, even when an end was set; a later date restarts when an end was set, is refused across a disabled date, and otherwise becomes the end |
| `Selection.CompleteRangeUnlessDisabledBetween` | app/datepicker/common/bs-date-picker-base.class.ts:126-138 | completing a range succeeds exactly when no disabled custom date lies between start and end; otherwise the state is unchanged |
| `Selection.RangeSameDayTwice` | app/datepicker/common/bs-date-picker-base.class.ts:100-117 | clicking a date twice in an empty range picker gives a one-day range with both ends on that date |
| `Selection.SelectAllKeepsRangeOrdered` | app/datepicker/common/bs-date-picker-base.class.ts:99-139 | after any sequence of clicks, a set end date has a start date not after it |
| `Selection.ActivateDate` | app/datepicker/common/bs-date-picker-base.class.ts:77-85 | hovering changes only the active date, and only to an enabled date |
| `Selection.ActivateKeepsRangeOrdered` | app/datepicker/common/bs-date-picker-base.class.ts:77-85 | hovering preserves the range invariant |
| `Navigation.SetViewMode` | app/datepicker/common/bs-date-picker-base.class.ts:48-53 | only the view mode changes; it becomes the requested mode when that mode lies within `[minMode, maxMode]`, and otherwise the options are unchanged; a mode within bounds stays within bounds |
| `Navigation.SetViewDate` | app/datepicker/common/bs-date-picker-base.class.ts:55-75 | the view date is always set; without drill-down nothing else changes; with it, the year view narrows to months when `minMode` is at most months and otherwise commits `SelectDate` of the date, the month view narrows to days when `minMode` is days and otherwise commits the pick, and the day view only moves; bounds and the range invariant are preserved |
| `Navigation.DegradeYearsToMonths` | app/datepicker/common/bs-date-picker-base.class.ts:61-66 | drilling down from years with months allowed switches to months and keeps the selection |
| `Navigation.DegradeAtFloorSelects` | app/datepicker/common/bs-date-picker-base.class.ts:67-72 | drilling down from months with months as the floor keeps the mode and selects the date |
| `Navigation.Prev` | app/datepicker/common/bs-date-picker-base.class.ts:142-144 | moving back replaces the view date by the library's shift by minus the step; nothing else changes |
| `Navigation.Next` | app/datepicker/common/bs-date-picker-base.class.ts:146-148 | moving forward replaces the view date by the library's shift by the step; nothing else changes |
| `Dates.DaysInMonth` | app/datepicker/common/bs-date-picker-base.class.ts:399 | February has 29 days in a leap year and 28 otherwise; April, June, September and November have 30; the other months 31 |
| `Dates.PrevMonth` | app/datepicker/common/bs-date-picker-base.class.ts:283-284 | the previous month, across a year boundary for January; the month after it is the input month |
| `Dates.NextDay` | app/datepicker/common/bs-date-picker-base.class.ts:299-300 | one cell step gives an existing day strictly after the current one, at the same time of day, rolling over at the month's end; with `Dates.NextDayIsImmediate`, no existing day lies strictly between it and the current one |
| `Dates.NextDayIsImmediate` | app/datepicker/common/bs-date-picker-base.class.ts:299-300 | no existing day lies strictly between a day and the next cell's day, so one step is exactly the following day |
| `Dates.Advance` | app/datepicker/common/bs-date-picker-base.class.ts:299-300 | walking n cells stays on existing days at the same time of day and, for n > 0, ends strictly later |
| `Dates.AdvanceAdd` | app/datepicker/common/bs-date-picker-base.class.ts:299-300 | walking a + b days is walking a days, then b |
| `Dates.AdvanceWithinMonth` | app/datepicker/common/bs-date-picker-base.class.ts:299-300 | within one month, walking n days adds n to the day number |
| `DayGrid.StartingDay` | app/datepicker/common/bs-date-picker-base.class.ts:390-409 | 1 to 7 previous-month cells lead, so the start day is in `[D-6, D]`; the top-left cell falls on the locale's first week day (lead ≡ weekday of the 1st − first day, mod 7); the lead is 7 exactly when the month starts on the first week day |
| `DayGrid.StartingDaySpecialCaseRedundant` | app/datepicker/common/bs-date-picker-base.class.ts:402-409 | the special case for a month starting on the first week day gives what the general formula gives |
| `DayGrid.LeadingCells` | app/datepicker/common/bs-date-picker-base.class.ts:399-409 | the number of leading previous-month cells is between 1 and 7 |
| `DayGrid.StartingDate` | app/datepicker/common/bs-date-picker-base.class.ts:390-411 | the corrected top-left date is an existing day before the 1st of the view month, and walking the leading cells from it reaches that 1st |
| `DayGrid.StartingDateAsWritten` | app/datepicker/common/bs-date-picker-base.class.ts:390-411 | as written, the top-left date carries the view year and otherwise agrees with the corrected one |
| `DayGrid.StartingDateAsWrittenJanuary` | app/datepicker/common/bs-date-picker-base.class.ts:411 | as written, the top-left date agrees with the corrected one except for a January view, where it is a year late and after the view month |
| `DayGrid.StartingDateJanuary2024` | app/datepicker/common/bs-date-picker-base.class.ts:390-411 | January 2024 (starting on a Monday, Sunday first): 31 December 2023 intended, 31 December 2024 as written |
| `DayGrid.Cursor` | app/datepicker/common/bs-date-picker-base.class.ts:295-300 | the walking cursor is always an existing day anchored at noon |
| `DayGrid.CursorConsecutive` | app/datepicker/common/bs-date-picker-base.class.ts:299-300 | neighbouring cells hold consecutive days |
| `DayGrid.DayCells` | app/datepicker/common/bs-date-picker-base.class.ts:299 | the day grid has exactly `dayRows * dayColumns` cells |
| `DayGrid.CellFor` | app/datepicker/common/bs-date-picker-base.class.ts:306-316 | a cell's date is the cursor's day at the view date's time of day; an in-range cell is never selected; in a range picker a cell is selected exactly when it is the start or end cell |
| `DayGrid.Weeks` | app/datepicker/common/bs-date-picker-base.class.ts:299-304 | the wrap makes `ceil(n / 7)` rows, each full except possibly the last, none empty |
| `DayGrid.FlattenWeeks` | app/datepicker/common/bs-date-picker-base.class.ts:299-306 | cutting the cells into rows of seven loses and reorders nothing |
| `DayGrid.WeeksPlacement` | app/datepicker/common/bs-date-picker-base.class.ts:299-306 | cell i lands at row i / 7, column i % 7, as the wrapping counters place it |
| `DayGrid.DaysMatrix` | app/datepicker/common/bs-date-picker-base.class.ts:286-320 | when the rows of seven fit the `dayColums`-sized outer array, the matrix read row by row (leaving out the empty trailing slots of a partly filled last row) is the cell sequence, and cell i sits at row i / 7, column i % 7 |
| `DayGrid.LeadingCellsInPrevMonth` | app/datepicker/common/bs-date-picker-base.class.ts:295-314 | the leading cells are the previous month's days from the start day up to its last day, all marked as another month |
| `DayGrid.ViewMonthCells` | app/datepicker/common/bs-date-picker-base.class.ts:295-314 | after the leading cells come the view month's days 1st to last, in order, not marked as another month |
| `DayGrid.TrailingCellsInNextMonth` | app/datepicker/common/bs-date-picker-base.class.ts:295-314 | the 28 cells after the view month are the next month's days 1 to 28, marked as another month |
| `DayGrid.OtherMonthExactly` | app/datepicker/common/bs-date-picker-base.class.ts:314 | over those cells, a cursor is in another month exactly when it lies outside the view month's run |
| `DayGrid.FirstOfMonthPosition` | app/datepicker/common/bs-date-picker-base.class.ts:299-306 | the 1st of the month is in the first row after the leading cells, or opens the second row when a whole week leads |
| `DayGrid.DayCellsMonthRun` | app/datepicker/common/bs-date-picker-base.class.ts:306-316 | in a grid of up to 57 cells, a cell is flagged as another month exactly outside the view month's run, and the run's dates are the view month's days at the view date's time of day |
| `SmallGrids.MonthsMatrix` | app/datepicker/common/bs-date-picker-base.class.ts:323-339 | a 4 x 3 grid; month k of the view year sits at row k / 3, column k % 3, dated its 1st, active exactly when it is the view month |
| `SmallGrids.MonthGridOneActive` | app/datepicker/common/bs-date-picker-base.class.ts:330-334 | for a view month in range, exactly one cell is active and no month appears twice |
| `SmallGrids.TruncRem` | app/datepicker/common/bs-date-picker-base.class.ts:417 | the remainder satisfies dividend = divisor × truncated quotient + remainder, and takes the dividend's sign |
| `SmallGrids.StartingYear` | app/datepicker/common/bs-date-picker-base.class.ts:414-418 | the starting year is a multiple of `yearColumns * yearRows`; for a non-negative year it is at most the year and within one grid size of it |
| `SmallGrids.StartingYearNegative` | app/datepicker/common/bs-date-picker-base.class.ts:417 | for a negative year that is not a multiple of the grid size, the starting year lies after the year |
| `SmallGrids.YearsMatrix` | app/datepicker/common/bs-date-picker-base.class.ts:341-356 | a `yearRows x yearColumns` grid whose cell (r, c) is year `start + r * yearColumns + c`, dated the 1st of the view month; a non-negative view year is on the grid |

## Left out

- The constructor, `ngOnInit`, the abstract `refresh` and the `viewDateChange`/`onUpdate` subscriptions (lines 15-42) are Angular lifecycle and change notification, not engine logic.
- `getWeeksNumbers` (lines 358-371) reads week numbers from the date library's formatting tokens. It is also the only consumer of the top-left date's year, which is wrong for January views (see Findings).
- `getLocale` (lines 373-388), the day labels (`format.day`) and the month names are locale lookups and formatting. Cells carry the month index instead of its name and no day label.
- The date library's arithmetic is left out. `prev`/`next` take it as the `add` parameter, so month-end clamping is not modelled. The day grid's 24-hour step from a noon anchor is modelled as a whole-day step, so daylight-saving shifts are not modelled.
- The outer day-grid array is sized by the `dayColums` option field (lines 287-293). When the walk needs more rows of seven than that, line 306 writes into a missing row and throws; `DayGrid.DaysMatrix` requires that the rows fit, while `DayGrid.DayCells` lists the cells of any grid size. Unused trailing slots of the outer array are not modelled. Every row is also pre-sized to `dayRows` slots (line 292), so when the cell count is not a multiple of seven the source's partly filled last row keeps empty trailing slots; the model's last row holds only the cells, and `DayGrid.DaysMatrix` reads row by row as the cell sequence with those empty slots left out. Cells are cut into rows of seven, as the hard-coded wrap at line 301 does; no other row width is claimed.
- Custom-date rules always carry a date. A rule with a missing date is not modelled.
- `Navigation.Prev`: states only that the view date becomes the library's shifted date and nothing else changes. The shift itself is external.
- `Navigation.Next`: states only that the view date becomes the library's shifted date and nothing else changes. The shift itself is external.
- `DayGrid.DayCellsMonthRun`: the other-month characterisation is proved only for grids of up to 57 cells. The default 6 x 7 grid is within that.

## Findings

| source | as written | input that shows it | evidently intended | confidence | as-written member | corrected member |
|---|---|---|---|---|---|---|
| app/datepicker/common/bs-date-picker-base.class.ts:411 | `getStartingDay` builds the top-left date with the view year `year`, although the day and month belong to the previous month | view date in January 2024 (1 January is a Monday), Sunday as first week day: returns 31 December 2024 | 31 December 2023, built with `lastYear` as line 297 does | high; not executed | `DayGrid.StartingDateAsWrittenJanuary` (on `DayGrid.StartingDateAsWritten`) | `DayGrid.StartingDate` |

=== FILE: dates.dfy ===
/** Calendar dates as the date library hands them to the picker: comparison at a
    granularity (day, month or year), and the proleptic Gregorian month lengths
    the day grid walks over. */
module Dates {

  /** A timezone-naive date-time. `month` is 0-based: January is 0, December 11. */
  datatype Date = Date(year: int, month: int, day: int, hour: int, minute: int, second: int)

  /** The precision of a comparison, the date library's unit argument. */
  datatype Granularity = Day | Month | Year

  /** `a` and `b` fall in the same year, month or day. */
  predicate Same(a: Date, b: Date, g: Granularity) {
    && a.year == b.year
    && (g == Year || a.month == b.month)
    && (g != Day || a.day == b.day)
  }

  /** The year, month or day of `a` ends before that of `b` begins. */
  predicate Before(a: Date, b: Date, g: Granularity) {
    || a.year < b.year
    || (g != Year && a.year == b.year && a.month < b.month)
    || (g == Day && a.year == b.year && a.month == b.month && a.day < b.day)
  }

  predicate SameOrBefore(a: Date, b: Date, g: Granularity) {
    Before(a, b, g) || Same(a, b, g)
  }

  lemma SameOrBeforeTransitive(a: Date, b: Date, c: Date, g: Granularity)
    requires SameOrBefore(a, b, g) && SameOrBefore(b, c, g)
    ensures SameOrBefore(a, c, g)
  {
  }

  predicate IsLeapYear(year: int) {
    year % 4 == 0 && (year % 100 != 0 || year % 400 == 0)
  }

  function DaysInMonth(year: int, month: int): (n: int)
    requires 0 <= month < 12
    ensures 28 <= n <= 31
    ensures n == 29 <==> month == 1 && IsLeapYear(year)
    ensures n == 28 <==> month == 1 && !IsLeapYear(year)
    // April, June, September and November have 30 days, the other months 31
    ensures month != 1 ==> (n == 30 <==> month == 3 || month == 5 || month == 8 || month == 10)
  {
    if month == 1 then (if IsLeapYear(year) then 29 else 28)
    else if month == 3 || month == 5 || month == 8 || month == 10 then 30
    else 31
  }

  /** `d` names an existing day: a month 0..11 and a day inside that month. */
  predicate DayInMonth(d: Date) {
    0 <= d.month < 12 && 1 <= d.day <= DaysInMonth(d.year, d.month)
  }

  predicate SameTime(a: Date, b: Date) {
    a.hour == b.hour && a.minute == b.minute && a.second == b.second
  }

  /** The (year, month) before `month` of `year`; the month after the result is the input. */
  function PrevMonth(year: int, month: int): (r: (int, int))
    requires 0 <= month < 12
    ensures 0 <= r.1 < 12
    ensures r.1 < 11 ==> r.0 == year && r.1 + 1 == month
    ensures r.1 == 11 ==> r.0 + 1 == year && month == 0
  {
    if month == 0 then (year - 1, 11) else (year, month - 1)
  }

  /** The first day of the month of `d`, at midnight. */
  function FirstOfMonth(d: Date): (r: Date)
    requires 0 <= d.month < 12
    ensures DayInMonth(r) && Same(r, d, Month) && r.day == 1
  {
    Date(d.year, d.month, 1, 0, 0, 0)
  }

  /** The following calendar day at the same time of day. */
  function NextDay(d: Date): (r: Date)
    requires DayInMonth(d)
    ensures DayInMonth(r) && SameTime(r, d)
    ensures Before(d, r, Day)
    ensures r.day == 1 <==> d.day == DaysInMonth(d.year, d.month)
  {
    if d.day < DaysInMonth(d.year, d.month) then d.(day := d.day + 1)
    else if d.month < 11 then d.(month := d.month + 1, day := 1)
    else d.(year := d.year + 1, month := 0, day := 1)
  }

  /** No existing day lies strictly between a day and its successor. */
  lemma NextDayIsImmediate(d: Date, e: Date)
    requires DayInMonth(d) && DayInMonth(e)
    ensures !(Before(d, e, Day) && Before(e, NextDay(d), Day))
  {
  }

  /** `n` days after `d`, at the same time of day. */
  function Advance(d: Date, n: nat): (r: Date)
    requires DayInMonth(d)
    ensures DayInMonth(r) && SameTime(r, d)
    ensures n > 0 ==> Before(d, r, Day)
    decreases n
  {
    if n == 0 then d
    else
      var r := Advance(NextDay(d), n - 1);
      assert n - 1 > 0 ==> SameOrBefore(d, NextDay(d), Day) && SameOrBefore(NextDay(d), r, Day);
      r
  }

  /** Walking `a + b` days is walking `a` days, then `b`. */
  lemma {:induction false} AdvanceAdd(d: Date, a: nat, b: nat)
    requires DayInMonth(d)
    ensures Advance(d, a + b) == Advance(Advance(d, a), b)
    decreases a
  {
    if a > 0 {
      AdvanceAdd(NextDay(d), a - 1, b);
    }
  }

  /** Inside one month, walking `n` days adds `n` to the day number. */
  lemma {:induction false} AdvanceWithinMonth(d: Date, n: nat)
    requires DayInMonth(d)
    requires d.day + n <= DaysInMonth(d.year, d.month)
    ensures Advance(d, n) == d.(day := d.day + n)
    decreases n
  {
    if n > 0 {
      AdvanceWithinMonth(NextDay(d), n - 1);
    }
  }
}

=== FILE: day_grid.dfy ===
/** The day view: the top-left date of the grid (`getStartingDay`), the walk of one
    day per cell from there, the per-cell flags, and the wrap into rows of seven. */
module DayGrid {
  import opened Wrappers
  import opened Dates
  import opened PickerState
  import opened Validity

  /** One cell of the day grid. The label, a formatted day number, is not modelled. */
  datatype DayCell = DayCell(
    date: Date,
    isActive: bool,
    isSelected: bool,
    isDisabled: bool,
    isSelectionStart: bool,
    isSelectionEnd: bool,
    isOtherMonth: bool,
    isHighlighted: bool)

  /** Week-day indices run 0 (Sunday) to 6. `weekdayOfFirst` is the week day of the 1st
      of the view month and `firstDayOfWeek` the locale's first week day, both supplied
      by the date library. */
  predicate WeekdaysOk(weekdayOfFirst: int, firstDayOfWeek: int) {
    0 <= weekdayOfFirst < 7 && 0 <= firstDayOfWeek < 7
  }

  function DaysInPrevMonth(viewDate: Date): (n: int)
    requires 0 <= viewDate.month < 12
  {
    var prev := PrevMonth(viewDate.year, viewDate.month);
    DaysInMonth(prev.0, prev.1)
  }

  /** The day number, in the previous month, of the grid's top-left cell. The number of
      leading previous-month cells is between 1 and 7, and the top-left cell falls on
      the locale's first week day: stepping back that many days from the 1st lands on
      `firstDayOfWeek`. A full week of the previous month leads exactly when the month
      itself starts on the first week day. */
  function StartingDay(viewDate: Date, weekdayOfFirst: int, firstDayOfWeek: int): (start: int)
    requires 0 <= viewDate.month < 12 && WeekdaysOk(weekdayOfFirst, firstDayOfWeek)
    ensures var lead := DaysInPrevMonth(viewDate) - start + 1;
      && 1 <= lead <= 7
      && (weekdayOfFirst - lead - firstDayOfWeek) % 7 == 0
      && (lead == 7 <==> weekdayOfFirst == firstDayOfWeek)
  {
    var daysInLastMonth := DaysInPrevMonth(viewDate);
    var startDay := daysInLastMonth - weekdayOfFirst + firstDayOfWeek + 1;
    var startDay := if startDay > daysInLastMonth then startDay - 7 else startDay;
    if weekdayOfFirst == firstDayOfWeek then daysInLastMonth - 6 else startDay
  }

  /** The special case for a month starting on the first week day changes nothing: the
      general formula already yields a full leading week. */
  lemma StartingDaySpecialCaseRedundant(viewDate: Date, weekdayOfFirst: int, firstDayOfWeek: int)
    requires 0 <= viewDate.month < 12 && WeekdaysOk(weekdayOfFirst, firstDayOfWeek)
    ensures var daysInLastMonth := DaysInPrevMonth(viewDate);
      var startDay := daysInLastMonth - weekdayOfFirst + firstDayOfWeek + 1;
      StartingDay(viewDate, weekdayOfFirst, firstDayOfWeek)
        == if startDay > daysInLastMonth then startDay - 7 else startDay
  {
  }

  /** How many cells of the previous month precede the 1st of the view month. */
  function LeadingCells(viewDate: Date, weekdayOfFirst: int, firstDayOfWeek: int): (lead: nat)
    requires 0 <= viewDate.month < 12 && WeekdaysOk(weekdayOfFirst, firstDayOfWeek)
    ensures 1 <= lead <= 7
  {
    DaysInPrevMonth(viewDate) - StartingDay(viewDate, weekdayOfFirst, firstDayOfWeek) + 1
  }

  /** The date of the top-left cell, at midnight, in the previous month of the previous
      month's year. Walking forward the leading cells from it reaches the 1st of the
      view month. */
  function StartingDate(viewDate: Date, weekdayOfFirst: int, firstDayOfWeek: int): (r: Date)
    requires 0 <= viewDate.month < 12 && WeekdaysOk(weekdayOfFirst, firstDayOfWeek)
    ensures DayInMonth(r) && Before(r, FirstOfMonth(viewDate), Day)
    ensures Advance(r, LeadingCells(viewDate, weekdayOfFirst, firstDayOfWeek)) == FirstOfMonth(viewDate)
  {
    var prev := PrevMonth(viewDate.year, viewDate.month);
    var r := Date(prev.0, prev.1, StartingDay(viewDate, weekdayOfFirst, firstDayOfWeek), 0, 0, 0);
    LeadingCellsReachFirst(r, LeadingCells(viewDate, weekdayOfFirst, firstDayOfWeek), FirstOfMonth(viewDate));
    r
  }

  /** From a day `lead - 1` days before the end of its month, `lead` steps reach the 1st
      of the following month. */
  lemma LeadingCellsReachFirst(r: Date, lead: nat, first: Date)
    requires DayInMonth(r) && 1 <= lead && r.day + lead - 1 == DaysInMonth(r.year, r.month)
    requires first.day == 1 && SameTime(first, r) && 0 <= first.month < 12
    requires PrevMonth(first.year, first.month) == (r.year, r.month)
    ensures Advance(r, lead) == first
  {
    AdvanceWithinMonth(r, lead - 1);
    AdvanceAdd(r, lead - 1, 1);
    assert Advance(Advance(r, lead - 1), 1) == NextDay(Advance(r, lead - 1));
  }

  /** The top-left date as the source builds it: with the view year instead of the
      previous month's year. It differs from `StartingDate` in the year alone. */
  function StartingDateAsWritten(viewDate: Date, weekdayOfFirst: int, firstDayOfWeek: int): (r: Date)
    requires 0 <= viewDate.month < 12 && WeekdaysOk(weekdayOfFirst, firstDayOfWeek)
    ensures r.year == viewDate.year
    ensures r.(year := StartingDate(viewDate, weekdayOfFirst, firstDayOfWeek).year)
      == StartingDate(viewDate, weekdayOfFirst, firstDayOfWeek)
  {
    var prev := PrevMonth(viewDate.year, viewDate.month);
    Date(viewDate.year, prev.1, StartingDay(viewDate, weekdayOfFirst, firstDayOfWeek), 0, 0, 0)
  }

  /** For a January view the as-written top-left date is December of the view year: a
      year late, after the month it should precede. In every other month it agrees with
      `StartingDate`. */
  lemma StartingDateAsWrittenJanuary(viewDate: Date, weekdayOfFirst: int, firstDayOfWeek: int)
    requires 0 <= viewDate.month < 12 && WeekdaysOk(weekdayOfFirst, firstDayOfWeek)
    ensures viewDate.month != 0 ==>
      StartingDateAsWritten(viewDate, weekdayOfFirst, firstDayOfWeek)
        == StartingDate(viewDate, weekdayOfFirst, firstDayOfWeek)
    ensures viewDate.month == 0 ==>
      && StartingDateAsWritten(viewDate, weekdayOfFirst, firstDayOfWeek).year
           == StartingDate(viewDate, weekdayOfFirst, firstDayOfWeek).year + 1
      && Before(FirstOfMonth(viewDate), StartingDateAsWritten(viewDate, weekdayOfFirst, firstDayOfWeek), Day)
  {
  }

  /** January 2024 begins on a Monday (week day 1); with Sunday first the grid should
      start on 31 December 2023, and the source yields 31 December 2024. */
  lemma StartingDateJanuary2024()
    ensures StartingDate(Date(2024, 0, 15, 9, 30, 0), 1, 0) == Date(2023, 11, 31, 0, 0, 0)
    ensures StartingDateAsWritten(Date(2024, 0, 15, 9, 30, 0), 1, 0) == Date(2024, 11, 31, 0, 0, 0)
  {
  }

  /** The walking cursor of cell `i`: `i` days after the top-left date, anchored at noon
      with the view date's minute and second. */
  function Cursor(viewDate: Date, weekdayOfFirst: int, firstDayOfWeek: int, i: nat): (c: Date)
    requires 0 <= viewDate.month < 12 && WeekdaysOk(weekdayOfFirst, firstDayOfWeek)
    ensures DayInMonth(c) && c.hour == 12
  {
    var start := StartingDate(viewDate, weekdayOfFirst, firstDayOfWeek);
    Advance(start.(hour := 12, minute := viewDate.minute, second := viewDate.second), i)
  }

  /** The cell for cursor `c`: its date is the cursor's day at the view date's time of
      day; its flags are the picker's predicates on `c`, so an in-range cell is never a
      selected one, and in a range picker the selected cells are the range's ends. */
  function CellFor(o: PickerOptions, s: State, viewDate: Date, c: Date, now: Date): (cell: DayCell)
    ensures Same(cell.date, c, Day) && SameTime(cell.date, viewDate)
    ensures cell.isActive ==> !cell.isSelected
    ensures o.isDateRangePicker && !o.isDatePicker ==>
      (cell.isSelected <==> cell.isSelectionStart || cell.isSelectionEnd)
  {
    DayCell(
      c.(hour := viewDate.hour, minute := viewDate.minute, second := viewDate.second),
      IsActive(o, s, Some(c)),
      IsSelected(o, s, Some(c)),
      IsDisabled(o, Some(c), Day),
      IsSelectionStart(o, s, Some(c)),
      IsSelectionEnd(o, s, Some(c)),
      IsOtherMonth(c, viewDate),
      IsHighlighted(o, s, c, now))
  }

  /** The `dayRows * dayColumns` cells in walking order. `now` is the clock, read where
      the source compares with a missing date. */
  function DayCells(o: PickerOptions, s: State, viewDate: Date, weekdayOfFirst: int, firstDayOfWeek: int, now: Date)
    : (cells: seq<DayCell>)
    requires 0 <= viewDate.month < 12 && WeekdaysOk(weekdayOfFirst, firstDayOfWeek)
    ensures |cells| == o.dayRows * o.dayColumns
  {
    seq(o.dayRows * o.dayColumns,
        i requires 0 <= i < o.dayRows * o.dayColumns =>
          CellFor(o, s, viewDate, Cursor(viewDate, weekdayOfFirst, firstDayOfWeek, i), now))
  }

  /** Cuts a sequence into rows of seven, the last row possibly shorter. */
  function Weeks<T>(cells: seq<T>): (rows: seq<seq<T>>)
    ensures |rows| == (|cells| + 6) / 7
    ensures forall r :: 0 <= r < |rows| ==> 0 < |rows[r]| <= 7
    ensures forall r :: 0 <= r < |rows| - 1 ==> |rows[r]| == 7
    decreases |cells|
  {
    if cells == [] then []
    else if |cells| <= 7 then [cells]
    else [cells[..7]] + Weeks(cells[7..])
  }

  function Flatten<T>(rows: seq<seq<T>>): seq<T>
    decreases |rows|
  {
    if rows == [] then [] else rows[0] + Flatten(rows[1..])
  }

  /** Cutting into weeks loses and reorders nothing. */
  lemma {:induction false} FlattenWeeks<T>(cells: seq<T>)
    ensures Flatten(Weeks(cells)) == cells
    decreases |cells|
  {
    if |cells| > 7 {
      FlattenWeeks(cells[7..]);
      assert Weeks(cells)[1..] == Weeks(cells[7..]);
      assert cells == cells[..7] + cells[7..];
    }
  }

  /** Cell `i` lands in row `i / 7`, column `i % 7`, as the source's wrapping counters place it. */
  lemma {:induction false} WeeksPlacement<T>(cells: seq<T>, i: nat)
    requires i < |cells|
    ensures i / 7 < |Weeks(cells)| && i % 7 < |Weeks(cells)[i / 7]|
    ensures Weeks(cells)[i / 7][i % 7] == cells[i]
    decreases |cells|
  {
    if i >= 7 {
      WeeksPlacement(cells[7..], i - 7);
      assert (i - 7) / 7 == i / 7 - 1 && (i - 7) % 7 == i % 7;
      assert Weeks(cells)[i / 7] == Weeks(cells[7..])[i / 7 - 1];
    }
  }

  /** Every cell is placed as `WeeksPlacement` says. */
  lemma WeeksPlacementAll<T>(cells: seq<T>)
    ensures forall i: nat :: i < |cells| ==>
      i / 7 < |Weeks(cells)| && i % 7 < |Weeks(cells)[i / 7]| && Weeks(cells)[i / 7][i % 7] == cells[i]
  {
    forall i: nat | i < |cells|
      ensures i / 7 < |Weeks(cells)| && i % 7 < |Weeks(cells)[i / 7]| && Weeks(cells)[i / 7][i % 7] == cells[i]
    {
      WeeksPlacement(cells, i);
    }
  }

  /** The day grid: `dayRows * dayColumns` cells, walking one day per cell from the
      top-left date, wrapped into rows of seven. The outer array has `dayColumns` slots,
      so the rows of seven must fit in it; a larger grid fails on a missing row. */
  function DaysMatrix(o: PickerOptions, s: State, viewDate: Date, weekdayOfFirst: int, firstDayOfWeek: int, now: Date)
    : (m: seq<seq<DayCell>>)
    requires 0 <= viewDate.month < 12 && WeekdaysOk(weekdayOfFirst, firstDayOfWeek)
    requires (o.dayRows * o.dayColumns + 6) / 7 <= o.dayColumns
    ensures Flatten(m) == DayCells(o, s, viewDate, weekdayOfFirst, firstDayOfWeek, now)
    ensures forall i: nat :: i < o.dayRows * o.dayColumns ==>
      i / 7 < |m| && i % 7 < |m[i / 7]|
      && m[i / 7][i % 7] == DayCells(o, s, viewDate, weekdayOfFirst, firstDayOfWeek, now)[i]
  {
    var cells := DayCells(o, s, viewDate, weekdayOfFirst, firstDayOfWeek, now);
    FlattenWeeks(cells);
    WeeksPlacementAll(cells);
    Weeks(cells)
  }

  /** Neighbouring cells hold consecutive days. */
  lemma CursorConsecutive(viewDate: Date, weekdayOfFirst: int, firstDayOfWeek: int, i: nat)
    requires 0 <= viewDate.month < 12 && WeekdaysOk(weekdayOfFirst, firstDayOfWeek)
    ensures Cursor(viewDate, weekdayOfFirst, firstDayOfWeek, i + 1)
      == NextDay(Cursor(viewDate, weekdayOfFirst, firstDayOfWeek, i))
  {
    var start := StartingDate(viewDate, weekdayOfFirst, firstDayOfWeek);
    var anchored := start.(hour := 12, minute := viewDate.minute, second := viewDate.second);
    AdvanceAdd(anchored, i, 1);
  }

  /** The leading cells are the last days of the previous month, ending on its last day,
      and are marked as another month. */
  lemma LeadingCellsInPrevMonth(viewDate: Date, weekdayOfFirst: int, firstDayOfWeek: int, i: nat)
    requires 0 <= viewDate.month < 12 && WeekdaysOk(weekdayOfFirst, firstDayOfWeek)
    requires i < LeadingCells(viewDate, weekdayOfFirst, firstDayOfWeek)
    ensures var c := Cursor(viewDate, weekdayOfFirst, firstDayOfWeek, i);
      && (c.year, c.month) == PrevMonth(viewDate.year, viewDate.month)
      && c.day == StartingDay(viewDate, weekdayOfFirst, firstDayOfWeek) + i
      && (i + 1 == LeadingCells(viewDate, weekdayOfFirst, firstDayOfWeek) ==> c.day == DaysInPrevMonth(viewDate))
      && IsOtherMonth(c, viewDate)
  {
    var start := StartingDate(viewDate, weekdayOfFirst, firstDayOfWeek);
    var anchored := start.(hour := 12, minute := viewDate.minute, second := viewDate.second);
    AdvanceWithinMonth(anchored, i);
  }

  /** After the leading cells come the days of the view month, 1st to last, in order,
      not marked as another month. */
  lemma ViewMonthCells(viewDate: Date, weekdayOfFirst: int, firstDayOfWeek: int, j: nat)
    requires 0 <= viewDate.month < 12 && WeekdaysOk(weekdayOfFirst, firstDayOfWeek)
    requires j < DaysInMonth(viewDate.year, viewDate.month)
    ensures var c := Cursor(viewDate, weekdayOfFirst, firstDayOfWeek, LeadingCells(viewDate, weekdayOfFirst, firstDayOfWeek) + j);
      && c == Date(viewDate.year, viewDate.month, j + 1, 12, viewDate.minute, viewDate.second)
      && !IsOtherMonth(c, viewDate)
  {
    var lead := LeadingCells(viewDate, weekdayOfFirst, firstDayOfWeek);
    var start := StartingDate(viewDate, weekdayOfFirst, firstDayOfWeek);
    var anchored := start.(hour := 12, minute := viewDate.minute, second := viewDate.second);
    var first := Date(viewDate.year, viewDate.month, 1, 12, viewDate.minute, viewDate.second);
    LeadingCellsReachFirst(anchored, lead, first);
    AdvanceAdd(anchored, lead, j);
    AdvanceWithinMonth(first, j);
  }

  /** The 28 cells after the view month belong to the next month and are marked so. */
  lemma TrailingCellsInNextMonth(viewDate: Date, weekdayOfFirst: int, firstDayOfWeek: int, j: nat)
    requires 0 <= viewDate.month < 12 && WeekdaysOk(weekdayOfFirst, firstDayOfWeek)
    requires j < 28
    ensures var i := LeadingCells(viewDate, weekdayOfFirst, firstDayOfWeek) + DaysInMonth(viewDate.year, viewDate.month) + j;
      var c := Cursor(viewDate, weekdayOfFirst, firstDayOfWeek, i);
      && PrevMonth(c.year, c.month) == (viewDate.year, viewDate.month)
      && c.day == j + 1
      && IsOtherMonth(c, viewDate)
  {
    var lead := LeadingCells(viewDate, weekdayOfFirst, firstDayOfWeek);
    var days := DaysInMonth(viewDate.year, viewDate.month);
    var start := StartingDate(viewDate, weekdayOfFirst, firstDayOfWeek);
    var anchored := start.(hour := 12, minute := viewDate.minute, second := viewDate.second);
    ViewMonthCells(viewDate, weekdayOfFirst, firstDayOfWeek, days - 1);
    var last := Cursor(viewDate, weekdayOfFirst, firstDayOfWeek, lead + days - 1);
    var next := NextDay(last);
    assert last.day == days && next.day == 1;
    assert PrevMonth(next.year, next.month) == (viewDate.year, viewDate.month);
    AdvanceAdd(anchored, lead + days - 1, 1 + j);
    assert Advance(last, 1 + j) == Advance(next, j);
    AdvanceWithinMonth(next, j);
  }

  /** Over the first `lead + days + 28` cells (which covers every grid of up to 57 cells,
      the default 6 x 7 among them) a cell is marked as another month exactly when it
      lies outside the run of the view month's days. */
  lemma OtherMonthExactly(viewDate: Date, weekdayOfFirst: int, firstDayOfWeek: int, i: nat)
    requires 0 <= viewDate.month < 12 && WeekdaysOk(weekdayOfFirst, firstDayOfWeek)
    requires i < LeadingCells(viewDate, weekdayOfFirst, firstDayOfWeek) + DaysInMonth(viewDate.year, viewDate.month) + 28
    ensures IsOtherMonth(Cursor(viewDate, weekdayOfFirst, firstDayOfWeek, i), viewDate) <==>
      !(LeadingCells(viewDate, weekdayOfFirst, firstDayOfWeek) <= i
        < LeadingCells(viewDate, weekdayOfFirst, firstDayOfWeek) + DaysInMonth(viewDate.year, viewDate.month))
  {
    var lead := LeadingCells(viewDate, weekdayOfFirst, firstDayOfWeek);
    var days := DaysInMonth(viewDate.year, viewDate.month);
    if i < lead {
      LeadingCellsInPrevMonth(viewDate, weekdayOfFirst, firstDayOfWeek, i);
    } else if i < lead + days {
      ViewMonthCells(viewDate, weekdayOfFirst, firstDayOfWeek, i - lead);
    } else {
      TrailingCellsInNextMonth(viewDate, weekdayOfFirst, firstDayOfWeek, i - lead - days);
    }
  }

  /** The 1st of the view month sits in the first row after the leading cells, or opens
      the second row when a whole previous week leads. */
  lemma FirstOfMonthPosition(viewDate: Date, weekdayOfFirst: int, firstDayOfWeek: int)
    requires 0 <= viewDate.month < 12 && WeekdaysOk(weekdayOfFirst, firstDayOfWeek)
    ensures var lead := LeadingCells(viewDate, weekdayOfFirst, firstDayOfWeek);
      && Cursor(viewDate, weekdayOfFirst, firstDayOfWeek, lead).day == 1
      && (weekdayOfFirst != firstDayOfWeek ==> lead / 7 == 0 && lead % 7 == (weekdayOfFirst - firstDayOfWeek) % 7)
      && (weekdayOfFirst == firstDayOfWeek ==> lead / 7 == 1 && lead % 7 == 0)
  {
    ViewMonthCells(viewDate, weekdayOfFirst, firstDayOfWeek, 0);
  }

  /** In a day grid of at most 57 cells (the default 6 x 7 among them) a cell is marked
      as another month exactly when it lies outside the run of the view month's days,
      and that run holds the view month's days, 1st to last, at the view date's time. */
  lemma DayCellsMonthRun(o: PickerOptions, s: State, viewDate: Date, weekdayOfFirst: int, firstDayOfWeek: int,
                         now: Date, i: nat)
    requires 0 <= viewDate.month < 12 && WeekdaysOk(weekdayOfFirst, firstDayOfWeek)
    requires o.dayRows * o.dayColumns <= 57 && i < o.dayRows * o.dayColumns
    ensures var lead := LeadingCells(viewDate, weekdayOfFirst, firstDayOfWeek);
      var days := DaysInMonth(viewDate.year, viewDate.month);
      var cell := DayCells(o, s, viewDate, weekdayOfFirst, firstDayOfWeek, now)[i];
      && (cell.isOtherMonth <==> !(lead <= i < lead + days))
      && (lead <= i < lead + days ==>
            cell.date == Date(viewDate.year, viewDate.month, i - lead + 1, viewDate.hour, viewDate.minute, viewDate.second))
  {
    var lead := LeadingCells(viewDate, weekdayOfFirst, firstDayOfWeek);
    var days := DaysInMonth(viewDate.year, viewDate.month);
    OtherMonthExactly(viewDate, weekdayOfFirst, firstDayOfWeek, i);
    if lead <= i < lead + days {
      ViewMonthCells(viewDate, weekdayOfFirst, firstDayOfWeek, i - lead);
    }
  }
}

=== FILE: navigation.dfy ===
/** The navigation and view-mode controller: choosing a view mode inside the
    configured bounds, moving the view date, and the drill-down ("degrade") that turns
    a pick in the year or month view into a narrower view or a committed selection. */
module Navigation {
  import opened Wrappers
  import opened Dates
  import opened PickerState
  import opened Validity
  import opened Selection

  /** The options and the selection state together, for the operations that change both. */
  datatype Picker = Picker(options: PickerOptions, state: State)

  /** The unit of a navigation step. */
  datatype TimeUnit = DaysUnit | MonthsUnit | YearsUnit

  /** Switches to mode `m` only when `minMode <= m <= maxMode`; otherwise nothing changes. */
  function SetViewMode(o: PickerOptions, m: ViewMode): (r: PickerOptions)
    ensures r.(viewMode := o.viewMode) == o
    ensures r.viewMode == m <==> m == o.viewMode || o.minMode.Rank() <= m.Rank() <= o.maxMode.Rank()
    ensures !(o.minMode.Rank() <= m.Rank() <= o.maxMode.Rank()) ==> r == o
    ensures ModeWithinBounds(o) ==> ModeWithinBounds(r)
  {
    if m.Rank() >= o.minMode.Rank() && m.Rank() <= o.maxMode.Rank() then o.(viewMode := m) else o
  }

  /** Moves the view to `d`. With `degrade`, the year view narrows to months and the
      month view to days when the floor `minMode` permits it; at the floor the pick is
      committed with `SelectDate` instead. */
  function SetViewDate(p: Picker, d: Date, degrade: bool): (r: Picker)
    ensures r.state.viewDate == d
    ensures r.options.(viewMode := p.options.viewMode) == p.options
    ensures !degrade ==> r == Picker(p.options, p.state.(viewDate := d))
    // a mode change is one step down, stays above the floor and leaves the selection alone
    ensures r.options.viewMode != p.options.viewMode ==>
      && r.options.viewMode.Rank() + 1 == p.options.viewMode.Rank()
      && p.options.minMode.Rank() <= r.options.viewMode.Rank()
      && r.state == p.state.(viewDate := d)
    // a selection change happens only at the floor of the year or month view
    ensures r.state != p.state.(viewDate := d) ==>
      && degrade && p.options.viewMode != Days && p.options.viewMode.Rank() <= p.options.minMode.Rank()
      && r.options == p.options && r.state == SelectDate(p.options, p.state.(viewDate := d), Some(d))
    // the outcome of each drill-down: narrow when the floor allows it, else commit the pick
    ensures degrade && p.options.viewMode == Years ==>
      r == if p.options.minMode.Rank() <= Months.Rank() then Picker(p.options.(viewMode := Months), p.state.(viewDate := d))
           else Picker(p.options, SelectDate(p.options, p.state.(viewDate := d), Some(d)))
    ensures degrade && p.options.viewMode == Months ==>
      r == if p.options.minMode == Days then Picker(p.options.(viewMode := Days), p.state.(viewDate := d))
           else Picker(p.options, SelectDate(p.options, p.state.(viewDate := d), Some(d)))
    ensures p.options.viewMode == Days ==> r == Picker(p.options, p.state.(viewDate := d))
    ensures ModeWithinBounds(p.options) ==> ModeWithinBounds(r.options)
    ensures RangeOrdered(p.state) ==> RangeOrdered(r.state)
  {
    var o := p.options;
    var s := p.state.(viewDate := d);
    if !degrade then Picker(o, s)
    else if o.viewMode == Years then
      if Months.Rank() >= o.minMode.Rank() then Picker(o.(viewMode := Months), s)
      else Picker(o, SelectDate(o, s, Some(d)))
    else if o.viewMode == Months then
      if Days.Rank() >= o.minMode.Rank() then Picker(o.(viewMode := Days), s)
      else Picker(o, SelectDate(o, s, Some(d)))
    else Picker(o, s)
  }

  /** Drill-down from the year view with the month view allowed: the mode narrows and
      the selection is untouched. */
  lemma DegradeYearsToMonths(p: Picker, d: Date)
    requires p.options.viewMode == Years && p.options.minMode.Rank() <= Months.Rank()
    ensures SetViewDate(p, d, true).options.viewMode == Months
    ensures SetViewDate(p, d, true).state.selected == p.state.selected
    ensures SetViewDate(p, d, true).state.selectedEnd == p.state.selectedEnd
  {
  }

  /** Drill-down from the month view when months are the floor: the mode stays and the
      date is picked as if clicked. */
  lemma DegradeAtFloorSelects(p: Picker, d: Date)
    requires p.options.viewMode == Months && p.options.minMode == Months
    ensures SetViewDate(p, d, true).options == p.options
    ensures SetViewDate(p, d, true).state == SelectDate(p.options, p.state.(viewDate := d), Some(d))
  {
  }

  /** Steps the view date back by `step` units. Date arithmetic is the date library's
      `add`, passed in; only the view date changes. */
  function Prev(s: State, unit: TimeUnit, step: int, add: (Date, TimeUnit, int) -> Date): (r: State)
    ensures r.viewDate == add(s.viewDate, unit, -step)
    ensures r.(viewDate := s.viewDate) == s
  {
    s.(viewDate := add(s.viewDate, unit, -step))
  }

  /** Steps the view date forward by `step` units; only the view date changes. */
  function Next(s: State, unit: TimeUnit, step: int, add: (Date, TimeUnit, int) -> Date): (r: State)
    ensures r.viewDate == add(s.viewDate, unit, step)
    ensures r.(viewDate := s.viewDate) == s
  {
    s.(viewDate := add(s.viewDate, unit, step))
  }
}

=== FILE: picker_state.dfy ===
/** The two records the calendar engine reads and writes: the selection state
    (view, selected, selected-end and active dates) and the picker's options. */
module PickerState {
  import opened Wrappers
  import opened Dates

  /** The view modes, ordered days < months < years. */
  datatype ViewMode = Days | Months | Years {
    function Rank(): nat {
      match this
      case Days => 0
      case Months => 1
      case Years => 2
    }
  }

  /** A per-date override; the picker consults it by day. */
  datatype CustomDate = CustomDate(date: Date, isDisabled: bool)

  datatype State = State(
    viewDate: Date,
    selected: Option<Date>,
    selectedEnd: Option<Date>,
    active: Option<Date>)

  /** The options the engine consults. A missing `customDates` list is the empty one,
      and a missing `date` options object leaves `min` and `max` unset. */
  datatype PickerOptions = PickerOptions(
    viewMode: ViewMode,
    minMode: ViewMode,
    maxMode: ViewMode,
    min: Option<Date>,
    max: Option<Date>,
    customDates: seq<CustomDate>,
    isDatePicker: bool,
    isDateRangePicker: bool,
    dayRows: nat,
    dayColumns: nat,
    yearRows: nat,
    yearColumns: nat)

  /** The range invariant: an end date needs a start date that is not after it (by day). */
  predicate RangeOrdered(s: State) {
    s.selectedEnd.Some? ==>
      s.selected.Some? && SameOrBefore(s.selected.value, s.selectedEnd.value, Day)
  }

  /** The view mode lies between the configured floor and ceiling. */
  predicate ModeWithinBounds(o: PickerOptions) {
    o.minMode.Rank() <= o.viewMode.Rank() <= o.maxMode.Rank()
  }
}

=== FILE: selection.dfy ===
/** The selection state machine: what a click on a date does to the selected,
    selected-end and active dates, in single-date and in range mode. */
module Selection {
  import opened Wrappers
  import opened Dates
  import opened PickerState
  import opened Validity

  /** A click on `d`. A disabled (or missing) date changes nothing. A single-date
      picker selects `d` and clears the end. A range picker tries, first match wins:
      no start yet -> start at `d`; `d` before the start -> restart at `d`; `d` on the
      start's day -> one-day range ending at `d`; an end already set -> restart at `d`;
      a disabled day between start and `d` -> nothing; else the range ends at `d`. */
  function SelectDate(o: PickerOptions, s: State, d: Option<Date>): (r: State)
    ensures IsDisabled(o, d, Day) ==> r == s
    ensures !IsDisabled(o, d, Day) && o.isDatePicker ==> r == s.(selected := d, selectedEnd := None)
    ensures !o.isDatePicker && !o.isDateRangePicker ==> r == s
    ensures r.viewDate == s.viewDate && r.active == s.active
    ensures r != s ==> d.Some? && !IsDisabled(o, d, Day) && (r.selected == d || r.selectedEnd == d)
    ensures RangeOrdered(s) ==> RangeOrdered(r)
  {
    if IsDisabled(o, d, Day) then s
    else if o.isDatePicker then s.(selected := d, selectedEnd := None)
    else if !o.isDateRangePicker then s
    else if s.selected.None? then s.(selected := d)
    else if Before(d.value, s.selected.value, Day) then s.(selected := d, selectedEnd := None)
    else if Same(d.value, s.selected.value, Day) then s.(selectedEnd := d)
    else if s.selectedEnd.Some? then s.(selected := d, selectedEnd := None)
    else if DisabledInRange(o, s.selected.value, d.value) then s
    // the same-day case was taken above, so this branch never fires
    else if IsSame(s.selected, d) then s.(selected := d, selectedEnd := None)
    else s.(selectedEnd := d)
  }

  /** Hovering `d` makes it the active date unless it is disabled; the committed
      selection and the view are never touched. */
  function ActivateDate(o: PickerOptions, s: State, d: Option<Date>): (r: State)
    ensures r.viewDate == s.viewDate && r.selected == s.selected && r.selectedEnd == s.selectedEnd
    ensures IsDisabled(o, d, Day) ==> r == s
    ensures !IsDisabled(o, d, Day) ==> r.active == d && d.Some?
  {
    if IsDisabled(o, d, Day) then s else s.(active := d)
  }

  /** Successive clicks, oldest first. */
  function SelectAll(o: PickerOptions, s: State, clicks: seq<Option<Date>>): State
    decreases |clicks|
  {
    if clicks == [] then s else SelectAll(o, SelectDate(o, s, clicks[0]), clicks[1..])
  }

  /** Any sequence of clicks keeps the range invariant. */
  lemma {:induction false} SelectAllKeepsRangeOrdered(o: PickerOptions, s: State, clicks: seq<Option<Date>>)
    requires RangeOrdered(s)
    ensures RangeOrdered(SelectAll(o, s, clicks))
    decreases |clicks|
  {
    if clicks != [] {
      SelectAllKeepsRangeOrdered(o, SelectDate(o, s, clicks[0]), clicks[1..]);
    }
  }

  /** In a single-date picker, clicking the same date twice is clicking it once. */
  lemma SingleSelectIdempotent(o: PickerOptions, s: State, d: Option<Date>)
    requires o.isDatePicker
    ensures SelectDate(o, SelectDate(o, s, d), d) == SelectDate(o, s, d)
  {
  }

  /** In a single-date picker, after clicking an enabled date the selected cells are
      exactly the cells on that date's day. */
  lemma SelectedAfterSingleSelect(o: PickerOptions, s: State, d: Date, e: Date)
    requires o.isDatePicker && !IsDisabled(o, Some(d), Day)
    ensures IsSelected(o, SelectDate(o, s, Some(d)), Some(e)) <==> Same(e, d, Day)
  {
  }

  /** In a range picker, completing a range from the start to a later enabled `d` makes
      the start cell the start's day, the end cell `d`'s day, and the selected cells
      exactly those two days. */
  lemma SelectedAfterRangeComplete(o: PickerOptions, s: State, d: Date, e: Date)
    requires !o.isDatePicker && o.isDateRangePicker
    requires !IsDisabled(o, Some(d), Day) && s.selected.Some? && s.selectedEnd.None?
    requires Before(s.selected.value, d, Day) && !DisabledInRange(o, s.selected.value, d)
    ensures var r := SelectDate(o, s, Some(d));
      && (IsSelectionStart(o, r, Some(e)) <==> Same(e, s.selected.value, Day))
      && (IsSelectionEnd(o, r, Some(e)) <==> Same(e, d, Day))
      && (IsSelected(o, r, Some(e)) <==> Same(e, s.selected.value, Day) || Same(e, d, Day))
  {
  }

  /** In a range picker, clicking a date with no start yet and then the same day again
      gives a one-day range, not a cleared end. */
  lemma RangeSameDayTwice(o: PickerOptions, s: State, d: Date)
    requires !o.isDatePicker && o.isDateRangePicker
    requires s.selected.None? && !IsDisabled(o, Some(d), Day)
    ensures SelectAll(o, s, [Some(d), Some(d)]).selected == Some(d)
    ensures SelectAll(o, s, [Some(d), Some(d)]).selectedEnd == Some(d)
  {
    var s1 := SelectDate(o, s, Some(d));
    assert s1.selected == Some(d);
    assert SelectAll(o, s, [Some(d), Some(d)]) == SelectAll(o, s1, [Some(d)]);
  }

  /** The range branches, in the order the picker tries them, for an enabled `d` in a
      range picker. */
  lemma RangeBranches(o: PickerOptions, s: State, d: Date)
    requires !o.isDatePicker && o.isDateRangePicker
    requires !IsDisabled(o, Some(d), Day)
    ensures s.selected.None? ==> SelectDate(o, s, Some(d)) == s.(selected := Some(d))
    ensures s.selected.Some? && Before(d, s.selected.value, Day) ==>
      SelectDate(o, s, Some(d)) == s.(selected := Some(d), selectedEnd := None)
    ensures s.selected.Some? && Same(d, s.selected.value, Day) ==>
      SelectDate(o, s, Some(d)) == s.(selectedEnd := Some(d))
    ensures s.selected.Some? && Before(s.selected.value, d, Day) && s.selectedEnd.Some? ==>
      SelectDate(o, s, Some(d)) == s.(selected := Some(d), selectedEnd := None)
    ensures (s.selected.Some? && Before(s.selected.value, d, Day) && s.selectedEnd.None?
             && DisabledInRange(o, s.selected.value, d)) ==>
      SelectDate(o, s, Some(d)) == s
    ensures (s.selected.Some? && Before(s.selected.value, d, Day) && s.selectedEnd.None?
             && !DisabledInRange(o, s.selected.value, d)) ==>
      SelectDate(o, s, Some(d)) == s.(selectedEnd := Some(d))
  {
  }

  /** Completing a range: with a start and no end, an enabled later `d` becomes the end
      exactly when no custom disabled day lies between the start and `d`. */
  lemma CompleteRangeUnlessDisabledBetween(o: PickerOptions, s: State, d: Date)
    requires !o.isDatePicker && o.isDateRangePicker
    requires !IsDisabled(o, Some(d), Day) && s.selected.Some? && s.selectedEnd.None?
    requires Before(s.selected.value, d, Day)
    ensures SelectDate(o, s, Some(d)).selectedEnd == Some(d) <==>
      !DisabledCustomIn(o.customDates, s.selected.value, d)
    ensures SelectDate(o, s, Some(d)).selectedEnd.None? ==> SelectDate(o, s, Some(d)) == s
  {
  }

  /** Hovering keeps the range invariant. */
  lemma ActivateKeepsRangeOrdered(o: PickerOptions, s: State, d: Option<Date>)
    requires RangeOrdered(s)
    ensures RangeOrdered(ActivateDate(o, s, d))
  {
  }
}

=== FILE: small_grids.dfy ===
/** The month view (a fixed 4 x 3 grid of the view year's months) and the year view
    (`yearRows x yearColumns` consecutive years from a rounded-down starting year). */
module SmallGrids {
  import opened Dates
  import opened PickerState

  /** A month cell. `month` indexes the locale's month names; the name itself is not
      modelled. */
  datatype MonthCell = MonthCell(date: Date, month: int, isActive: bool)

  /** A year cell; its label is its year. */
  datatype YearCell = YearCell(date: Date, year: int)

  /** The month grid: month `k` of the view year sits at row `k / 3`, column `k % 3`,
      dated the 1st at midnight, and is active exactly when it is the view month. */
  function MonthsMatrix(viewDate: Date): (m: seq<seq<MonthCell>>)
    ensures |m| == 4 && forall r :: 0 <= r < 4 ==> |m[r]| == 3
    ensures forall k :: 0 <= k < 12 ==>
      m[k / 3][k % 3] == MonthCell(Date(viewDate.year, k, 1, 0, 0, 0), k, k == viewDate.month)
  {
    seq(4, row =>
      seq(3, coll =>
        var monthNum := row * 3 + coll;
        MonthCell(Date(viewDate.year, monthNum, 1, 0, 0, 0), monthNum, monthNum == viewDate.month)))
  }

  /** For a view month in range, exactly one month cell is active, and no two cells
      hold the same month. */
  lemma MonthGridOneActive(viewDate: Date)
    requires 0 <= viewDate.month < 12
    ensures forall r, c :: 0 <= r < 4 && 0 <= c < 3 ==>
      (MonthsMatrix(viewDate)[r][c].isActive <==> r == viewDate.month / 3 && c == viewDate.month % 3)
    ensures forall r, c, r', c' ::
      (0 <= r < 4 && 0 <= c < 3 && 0 <= r' < 4 && 0 <= c' < 3
       && MonthsMatrix(viewDate)[r][c].month == MonthsMatrix(viewDate)[r'][c'].month) ==> r == r' && c == c'
  {
  }

  /** The quotient of the source language's division followed by truncation toward zero. */
  function TruncDiv(a: int, b: int): int
    requires b > 0
  {
    if a >= 0 then a / b else -((-a) / b)
  }

  /** Euclidean division of a non-negative dividend: quotient and remainder are
      non-negative, and the remainder is below the divisor and at most the dividend. */
  lemma DivModNonNeg(a: int, b: int)
    requires a >= 0 && b > 0
    ensures a == b * (a / b) + a % b && 0 <= a / b && 0 <= a % b < b && a % b <= a
  {
    assert 0 <= b * (a / b);
  }

  /** The remainder of the source language: truncated toward zero, so it takes the sign
      of the dividend. */
  function TruncRem(a: int, b: int): (r: int)
    requires b > 0
    ensures a == b * TruncDiv(a, b) + r
    ensures a >= 0 ==> 0 <= r < b && r <= a
    ensures a < 0 ==> -b < r <= 0 && a <= r
  {
    if a >= 0 then
      DivModNonNeg(a, b);
      a % b
    else
      DivModNonNeg(-a, b);
      -((-a) % b)
  }

  /** The first year of the year grid: `year` rounded toward zero to a multiple of the
      grid size `yearColumns * yearRows`. For a year of the common era the grid holds
      the year; before it the rounding goes up and the grid can start after the year. */
  function StartingYear(o: PickerOptions, year: int): (start: int)
    requires o.yearRows > 0 && o.yearColumns > 0
    ensures start == o.yearColumns * o.yearRows * TruncDiv(year, o.yearColumns * o.yearRows)
    ensures year >= 0 ==> 0 <= start <= year < start + o.yearColumns * o.yearRows
    ensures year < 0 ==> year <= start <= 0 && year < start + o.yearColumns * o.yearRows
  {
    var yearsStep := o.yearColumns * o.yearRows;
    assert yearsStep > 0;
    year - TruncRem(year, yearsStep)
  }

  /** A negative year that is not a multiple of the grid size is not on its own grid:
      the grid starts after it. */
  lemma StartingYearNegative(o: PickerOptions, year: int)
    requires o.yearRows > 0 && o.yearColumns > 0
    requires year < 0 && TruncRem(year, o.yearColumns * o.yearRows) != 0
    ensures StartingYear(o, year) > year
  {
  }

  /** For `0 <= k < rows * cols`, row `k / cols` and column `k % cols` lie in the grid and
      name cell `k` in row-major order. */
  lemma RowMajorIndex(k: int, rows: int, cols: int)
    requires rows > 0 && cols > 0 && 0 <= k < rows * cols
    ensures 0 <= k / cols < rows && 0 <= k % cols < cols
    ensures (k / cols) * cols + k % cols == k
  {
  }

  /** The year grid, built as the source builds it: a running year counter stepped once
      per cell, row by row. Cell `(r, c)` is labelled `start + r * yearColumns + c` and
      dated the 1st of the view month of that year; a year of the common era appears
      on its own grid. */
  method YearsMatrix(o: PickerOptions, viewDate: Date) returns (m: seq<seq<YearCell>>)
    requires o.yearRows > 0 && o.yearColumns > 0
    ensures |m| == o.yearRows
    ensures forall r :: 0 <= r < |m| ==> |m[r]| == o.yearColumns
    ensures forall r, c :: 0 <= r < o.yearRows && 0 <= c < o.yearColumns ==>
      var y := StartingYear(o, viewDate.year) + r * o.yearColumns + c;
      m[r][c] == YearCell(Date(y, viewDate.month, 1, 0, 0, 0), y)
    ensures viewDate.year >= 0 ==>
      exists r, c :: 0 <= r < |m| && 0 <= c < |m[r]| && m[r][c].year == viewDate.year
  {
    var start := StartingYear(o, viewDate.year);
    var year := start;
    var cols := o.yearColumns;
    var rows := o.yearRows;
    m := [];
    var row := 0;
    while row < rows
      invariant 0 <= row <= rows && |m| == row
      invariant year == start + row * cols
      invariant forall r :: 0 <= r < row ==> |m[r]| == cols
      invariant forall r, c :: 0 <= r < row && 0 <= c < cols ==>
        m[r][c] == YearCell(Date(start + r * cols + c, viewDate.month, 1, 0, 0, 0), start + r * cols + c)
    {
      var line := [];
      var coll := 0;
      while coll < cols
        invariant 0 <= coll <= cols && |line| == coll
        invariant year == start + row * cols + coll
        invariant forall c :: 0 <= c < coll ==>
          line[c] == YearCell(Date(start + row * cols + c, viewDate.month, 1, 0, 0, 0), start + row * cols + c)
      {
        line := line + [YearCell(Date(year, viewDate.month, 1, 0, 0, 0), year)];
        coll := coll + 1;
        year := year + 1;
      }
      assert (row + 1) * cols == row * cols + cols;
      m := m + [line];
      row := row + 1;
    }
    if viewDate.year >= 0 {
      var k := viewDate.year - start;
      RowMajorIndex(k, rows, cols);
      assert m[k / cols][k % cols].year == viewDate.year;
    }
  }
}

=== FILE: validity.dfy ===
/** The date predicates of the picker: sameness by day, the disabled-date rules
    (bounds and custom dates), disabled dates inside a range, and the per-cell
    flags (selected, in-range, range start and end, other month, highlighted). */
module Validity {
  import opened Wrappers
  import opened Dates
  import opened PickerState

  /** Two dates on the same day; false when either is missing. Being on the same day
      is being on or before each other's day. */
  function IsSame(a: Option<Date>, b: Option<Date>): (r: bool)
    ensures r <==> a.Some? && b.Some? && SameOrBefore(a.value, b.value, Day) && SameOrBefore(b.value, a.value, Day)
  {
    a.Some? && b.Some? && Same(a.value, b.value, Day)
  }

  lemma IsSameSymmetric(a: Option<Date>, b: Option<Date>)
    ensures IsSame(a, b) <==> IsSame(b, a)
  {
  }

  /** Some custom rule marked disabled falls on a day in `[lo, hi]`, inclusive. */
  predicate DisabledCustomIn(rules: seq<CustomDate>, lo: Date, hi: Date) {
    exists c :: c in rules && c.isDisabled && SameOrBefore(lo, c.date, Day) && SameOrBefore(c.date, hi, Day)
  }

  /** Scan of the custom dates for a disabling rule on the day of `d`. */
  function DisabledOn(rules: seq<CustomDate>, d: Date): (r: bool)
    ensures r <==> DisabledCustomIn(rules, d, d)
  {
    if rules == [] then false
    else if rules[0].isDisabled && Same(rules[0].date, d, Day) then true
    else
      var r := DisabledOn(rules[1..], d);
      assert forall c :: c in rules && c != rules[0] ==> c in rules[1..];
      r
  }

  /** Scan of the custom dates for a disabling rule whose day lies in `[lo, hi]`. */
  function DisabledBetween(rules: seq<CustomDate>, lo: Date, hi: Date): (r: bool)
    ensures r <==> DisabledCustomIn(rules, lo, hi)
  {
    if rules == [] then false
    else if rules[0].isDisabled && SameOrBefore(lo, rules[0].date, Day) && SameOrBefore(rules[0].date, hi, Day) then true
    else
      var r := DisabledBetween(rules[1..], lo, hi);
      assert forall c :: c in rules && c != rules[0] ==> c in rules[1..];
      r
  }

  /** Whether `d` may not be picked: it is missing, on or before `min`, on or after
      `max` (both at granularity `g`, so the bounds themselves are disabled), or a
      custom rule disables its day. */
  function IsDisabled(o: PickerOptions, d: Option<Date>, g: Granularity): (r: bool)
    ensures d.None? ==> r
    ensures d.Some? && o.min.Some? && Same(d.value, o.min.value, g) ==> r
    ensures d.Some? && o.max.Some? && Same(d.value, o.max.value, g) ==> r
    ensures r <==>
      || d.None?
      || (o.min.Some? && !Before(o.min.value, d.value, g))
      || (o.max.Some? && !Before(d.value, o.max.value, g))
      || DisabledCustomIn(o.customDates, d.value, d.value)
  {
    if d.None? then true
    else if o.min.Some? && SameOrBefore(d.value, o.min.value, g) then true
    else if o.max.Some? && SameOrBefore(o.max.value, d.value, g) then true
    else DisabledOn(o.customDates, d.value)
  }

  /** A custom disabled day between `start` and `d` (inclusive, by day); always false
      outside a range picker. `start` is the range's selected start date. */
  function DisabledInRange(o: PickerOptions, start: Date, d: Date): (r: bool)
    ensures r <==> o.isDateRangePicker && DisabledCustomIn(o.customDates, start, d)
  {
    if !o.isDateRangePicker then false
    else DisabledBetween(o.customDates, start, d)
  }

  /** A narrower range cannot contain a disabled day that the wider one misses. */
  lemma DisabledInRangeMonotone(o: PickerOptions, start: Date, d: Date, e: Date)
    requires SameOrBefore(d, e, Day)
    requires DisabledInRange(o, start, d)
    ensures DisabledInRange(o, start, e)
  {
    var c :| c in o.customDates && c.isDisabled
      && SameOrBefore(start, c.date, Day) && SameOrBefore(c.date, d, Day);
    SameOrBeforeTransitive(c.date, d, e, Day);
  }

  /** The cell of `d` shows a committed date: the single date, or either end of a range.
      In a range picker the selected cells are exactly the range's start and end cells. */
  function IsSelected(o: PickerOptions, s: State, d: Option<Date>): (r: bool)
    ensures r ==> d.Some?
    ensures o.isDatePicker && d.Some? ==> (r <==> s.selected.Some? && Same(d.value, s.selected.value, Day))
    ensures o.isDateRangePicker && !o.isDatePicker ==>
      (r <==> IsSelectionStart(o, s, d) || IsSelectionEnd(o, s, d))
  {
    if d.None? then false
    else if o.isDatePicker then IsSame(s.selected, d)
    else IsSame(s.selected, d) || IsSame(s.selectedEnd, d)
  }

  /** The cell of `d` lies strictly inside the committed range, or strictly inside the
      previewed range from the start to the active date; never when a disabled day
      lies in that range. */
  function IsActive(o: PickerOptions, s: State, d: Option<Date>): (r: bool)
    ensures r ==> !o.isDatePicker && d.Some? && s.selected.Some?
    ensures r ==> Before(s.selected.value, d.value, Day)
    ensures r && s.selectedEnd.Some? ==>
      Before(d.value, s.selectedEnd.value, Day) && !DisabledInRange(o, s.selected.value, s.selectedEnd.value)
    ensures r && s.selectedEnd.None? ==>
      s.active.Some? && Before(d.value, s.active.value, Day) && !DisabledInRange(o, s.selected.value, s.active.value)
  {
    if o.isDatePicker then false
    else if s.selected.None? || d.None? then false
    else if s.active.None? && s.selectedEnd.None? then false
    else if s.selectedEnd.Some? then
      if DisabledInRange(o, s.selected.value, s.selectedEnd.value) then false
      else Before(s.selected.value, d.value, Day) && Before(d.value, s.selectedEnd.value, Day)
    else if DisabledInRange(o, s.selected.value, s.active.value) then false
    else Before(s.selected.value, d.value, Day) && Before(d.value, s.active.value, Day)
  }

  /** The cell of `d` is the range's start; in an ordered range it is not after the end. */
  function IsSelectionStart(o: PickerOptions, s: State, d: Option<Date>): (r: bool)
    ensures r ==> o.isDateRangePicker
    ensures o.isDateRangePicker && d.Some? ==> (r <==> s.selected.Some? && Same(d.value, s.selected.value, Day))
    ensures r && RangeOrdered(s) && s.selectedEnd.Some? ==>
      d.Some? && SameOrBefore(d.value, s.selectedEnd.value, Day)
  {
    o.isDateRangePicker && IsSame(d, s.selected)
  }

  /** The cell of `d` is the range's end; in an ordered range it is not before the start. */
  function IsSelectionEnd(o: PickerOptions, s: State, d: Option<Date>): (r: bool)
    ensures r ==> o.isDateRangePicker
    ensures o.isDateRangePicker && d.Some? ==> (r <==> s.selectedEnd.Some? && Same(d.value, s.selectedEnd.value, Day))
    ensures r && RangeOrdered(s) ==>
      d.Some? && s.selected.Some? && SameOrBefore(s.selected.value, d.value, Day)
  {
    o.isDateRangePicker && IsSame(d, s.selectedEnd)
  }

  /** The cell of `d` lies in a month before or after the view month. */
  function IsOtherMonth(d: Date, viewDate: Date): (r: bool)
    ensures r <==> Before(d, viewDate, Month) || Before(viewDate, d, Month)
  {
    !Same(d, viewDate, Month)
  }

  /** The cell of `d` is the active (hovered) day, unless a disabled day lies between
      the range start and `d`. A missing start or active date reads as `now`, which is
      what the date library substitutes for a missing argument. */
  function IsHighlighted(o: PickerOptions, s: State, d: Date, now: Date): (r: bool)
    ensures r <==>
      && Same(d, s.active.GetOr(now), Day)
      && !(o.isDateRangePicker && DisabledCustomIn(o.customDates, s.selected.GetOr(now), d))
  {
    if DisabledInRange(o, s.selected.GetOr(now), d) then false
    else Same(d, s.active.GetOr(now), Day)
  }

  /** A cell strictly inside a range is never one of its selected ends. */
  lemma ActiveIsNotSelected(o: PickerOptions, s: State, d: Option<Date>)
    requires IsActive(o, s, d)
    ensures !IsSelected(o, s, d)
  {
  }

  /** In a range picker, the start and end cells are selected cells. */
  lemma EndpointsAreSelected(o: PickerOptions, s: State, d: Option<Date>)
    requires !o.isDatePicker
    requires IsSelectionStart(o, s, d) || IsSelectionEnd(o, s, d)
    ensures IsSelected(o, s, d)
  {
  }

  /** For a committed range that spans no disabled day, the in-range cells are exactly
      the days strictly between its start and end. */
  lemma ActiveInCommittedRange(o: PickerOptions, s: State, d: Date)
    requires !o.isDatePicker && s.selected.Some? && s.selectedEnd.Some?
    requires !DisabledInRange(o, s.selected.value, s.selectedEnd.value)
    ensures IsActive(o, s, Some(d)) <==>
      Before(s.selected.value, d, Day) && Before(d, s.selectedEnd.value, Day)
  {
  }

  /** While a range is being chosen (a start, no end, an active date) and no disabled day
      lies between the start and the active date, the in-range cells are exactly the
      days strictly between the start and the active date. */
  lemma ActiveInPreviewRange(o: PickerOptions, s: State, d: Date)
    requires !o.isDatePicker && s.selected.Some? && s.selectedEnd.None? && s.active.Some?
    requires !DisabledInRange(o, s.selected.value, s.active.value)
    ensures IsActive(o, s, Some(d)) <==>
      Before(s.selected.value, d, Day) && Before(d, s.active.value, Day)
  {
  }
}

=== FILE: wrappers.dfy ===
/** A value that may be missing: the picker's optional dates (`selectedDate`,
    `selectedEndDate`, `activeDate`, the `min`/`max` bounds) are all of this shape. */
module Wrappers {

  datatype Option<+T> = None | Some(value: T) {

    /** The wrapped value, or `default` when there is none. */
    function GetOr(default: T): T {
      match this
      case Some(v) => v
      case None => default
    }
  }
}
